=== FILE: README.md ===
# PostgreSQL persistence core, modelled in Dafny

This project models the core of a PostgreSQL data-access layer for Node.js. The core has two parts.

- **The persistence engine (`PostgresPersistence`).** It builds SQL text: identifier quoting, column, placeholder and assignment lists, and the SELECT / COUNT / DELETE / INSERT statements of the generic data operations. It keeps an append-only list of schema statements and bootstraps them once at open time ("probe, then run DDL once"). It runs an open/close state machine in which a connection-ownership flag decides who opens and closes the connection.
- **The connection resolver (`PostgresConnectionResolver`).** It validates the resolved endpoints through a fixed cascade of error codes (`NO_CONNECTION`, `NO_HOST`, `NO_PORT`, `NO_DATABASE`). It then composes the driver configuration, where the last truthy value wins for each key and a credential is laid over the result.

The PostgreSQL driver is an oracle: every operation returns the statements it would issue, in order, and the driver's replies are inputs. Those replies are the catalog probe's rows, which DDL statement fails, the COUNT rows, the returned rows, and driver errors. The connection component is modelled the same way: whether its own open or close fails, whether it reports open, and the client handle it hands out are all inputs. Everything is a pure function over immutable records.

Modules, one file each:

| file | module | models |
|---|---|---|
| wrappers.dfy | `Wrappers` | `Option` (null) and `Result` (value or raised error) |
| text.dfy | `Text` | decimal numerals, `null` in string concatenation, `Join`, and the "separator only once the accumulator is non-empty" idiom of every list builder |
| driver.dfy | `Driver` | values and JavaScript truthiness, rows, statements, driver replies, the error taxonomy |
| sql.dfy | `Sql` | `quoteIdentifier`, `generateColumns`, `generateParameters`, `generateSetParameters`, `generateValues`, query shapes and their text |
| schema.dfy | `Schema` | `ensureIndex`, `ensureSchema`, `clearSchema`, `createSchema` |
| lifecycle.dfy | `Lifecycle` | engine state, `configure`, `setReferences`, `unsetReferences`, `open`, `close` |
| operations.dfy | `Operations` | `getPageByFilter`, `getCountByFilter`, `getListByFilter`, `getOneRandom`, `create`, `deleteByFilter`, `clear` |
| resolver.dfy | `Resolver` | `validateConnection`, `validateConnections`, `composeConfig`, `resolve` |

Notes on what the code does:

- `deleteByFilter` returns nothing; the affected-row count is only logged.
- In a sequential run the `NO_CONNECTION` check in `open` can never fire, because a local connection is created just before it when none is set. `Lifecycle.Open` asserts this and promises never to fail with that code.
- Validation stops at the first invalid endpoint, so a list whose first bad endpoint lacks a port fails with `NO_PORT` even if a later endpoint lacks a host. Any endpoint without URI and host does make validation fail (`Resolver.MissingHostFails`). The code is `NO_HOST` when every endpoint lacks both (`Resolver.AllHostless`).
- The data operations do not check the opened flag. They only need a client handle. Without one, calling `query` raises a TypeError (`NoClient` here) before any statement goes out. After a failed schema bootstrap the handle is set although the engine is not opened, so the operations still run.
- The existence probe writes the table name raw, without quoting: `SELECT to_regclass('<table>')`.
- Validation tests the URI for null, but composition tests it for truthiness. An empty URI therefore passes validation and contributes nothing to the configuration (`Resolver.EmptyUriValidatesButComposesNothing`).

## Model

| member | source | states |
|---|---|---|
| Sql.QuoteIdentifier | obj/src/persistence/PostgresPersistence.js:236-242 | null stays null; "" and names starting with `"` pass through unchanged; anything else is wrapped in double quotes; the result is always in pass-through form |
| Sql.QuoteIdentifierIdempotent | obj/src/persistence/PostgresPersistence.js:236-242 | quoting an already quoted identifier changes nothing |
| Text.Accumulate | obj/src/persistence/PostgresPersistence.js:378-384 | the source's loop that writes a separator only once the result is non-empty equals `Join` of the parts after dropping the leading empty ones |
| Text.AccumulateNonEmptyParts | obj/src/persistence/PostgresPersistence.js:378-384 | with no empty part, the loop is exactly a separator join |
| Sql.GenerateColumns | obj/src/persistence/PostgresPersistence.js:376-385 | the quoted names joined by ",", in key order; with non-empty names, exactly one entry per name |
| Sql.GenerateParameters | obj/src/persistence/PostgresPersistence.js:391-402 | `$1,...,$n`: the placeholders 1..n joined by "," |
| Sql.PlaceholderInjective | obj/src/persistence/PostgresPersistence.js:398 | distinct positions get distinct `$n` placeholders |
| Text.ParseNatToString | obj/src/persistence/PostgresPersistence.js:398 | the decimal numeral written for a position reads back as that position |
| Text.IntToStringRoundTrip | obj/src/persistence/PostgresPersistence.js:455-458 | the OFFSET and LIMIT numerals read back as the skip and take values, sign included |
| Sql.GenerateSetParameters | obj/src/persistence/PostgresPersistence.js:408-418 | `"c1"=$1,"c2"=$2,...`: the i-th column's quoted name assigned the i-th placeholder |
| Sql.GenerateValues | obj/src/persistence/PostgresPersistence.js:424-426 | the field values in the same order as the keys |
| Sql.InsertListsAligned | obj/src/persistence/PostgresPersistence.js:376-426 | for non-empty column names, the column list, placeholder list and value list have one entry per field and the i-th entries come from the i-th field |
| Schema.IndexFields | obj/src/persistence/PostgresPersistence.js:187-195 | one entry per key; ` DESC` is appended exactly when the key's direction value is falsy |
| Schema.IndexStatement | obj/src/persistence/PostgresPersistence.js:177-196 | the statement has the form `CREATE[ UNIQUE] INDEX IF NOT EXISTS <q(name)> ON <q(table)>[ <type>] (k1[ DESC], ...)`; it starts with `CREATE UNIQUE ` exactly when `options.unique` is set |
| Schema.EnsureIndex | obj/src/persistence/PostgresPersistence.js:177-198 | appends exactly one statement, that index statement, and keeps the earlier ones |
| Schema.EnsureSchema | obj/src/persistence/PostgresPersistence.js:203-205 | appends one statement at the end; earlier statements unchanged |
| Schema.ClearSchema | obj/src/persistence/PostgresPersistence.js:209-211 | leaves the statement list empty |
| Schema.EnsureAllAppends | obj/src/persistence/PostgresPersistence.js:203-205 | successive appends keep insertion order: the list grows by exactly the added statements |
| Schema.RebuildAfterClear | obj/src/persistence/PostgresPersistence.js:203-211 | clearing and re-adding statements yields exactly those statements, in order |
| Schema.RunDdl | obj/src/persistence/PostgresPersistence.js:351-368 | statements run in insertion order up to and including the first failing one, whose error is rethrown; all of them when none fails |
| Schema.CreateSchema | obj/src/persistence/PostgresPersistence.js:329-370 | empty list: no query at all; otherwise the `to_regclass` probe first; a failing probe or an existing table stops there; an absent table runs the statements in order, stopping at the first failure and rethrowing its error |
| Schema.ExistingTableRunsNoDdl | obj/src/persistence/PostgresPersistence.js:334-349 | when the probe reports the table, only the probe is issued, whatever the list holds |
| Schema.AbsentTableRunsAll | obj/src/persistence/PostgresPersistence.js:350-363 | when the table is absent and no statement fails, the probe is followed by every statement in order, and the bootstrap succeeds |
| Lifecycle.Initial | obj/src/persistence/PostgresPersistence.js:112-124 | a new engine has its table name, page size 100, no statements, no connection, no client, no database name, does not own a connection, and is not opened |
| Lifecycle.Configure | obj/src/persistence/PostgresPersistence.js:130-137 | the defaults are applied first, so a missing `options.max_page_size` resets the page size to 100, an integer value sets it, and only a value that is not an integer keeps the current size; `table` wins over `collection`, which wins over the current name; nothing else changes |
| Lifecycle.ConfigureForgetsEarlierPageSize | obj/src/persistence/PostgresPersistence.js:130-134 | a page size set by one configure is reset to the constructor's 100 by a later configure that omits the key |
| Lifecycle.ConfigureIdempotent | obj/src/persistence/PostgresPersistence.js:130-137 | configuring twice with the same settings equals configuring once |
| Lifecycle.SetReferences | obj/src/persistence/PostgresPersistence.js:143-157 | a connection is always set afterwards: the one found in the references, or else a newly created local one; the engine owns it exactly when none was found |
| Lifecycle.UnsetReferences | obj/src/persistence/PostgresPersistence.js:161-163 | forgets the connection and nothing else |
| Lifecycle.Open | obj/src/persistence/PostgresPersistence.js:256-284 | a no-op when opened; opens the connection only when it is owned; fails with the connection's error or `CONNECT_FAILED`; never fails with `NO_CONNECTION`; a failure before the bootstrap changes only the connection fields; otherwise only the connection, client handle, database name, statement list (rebuilt through the hook) and opened flag change, and the queries issued are exactly the bootstrap's for the configured table name; opened only when the bootstrap succeeded; table name and page size are never touched |
| Lifecycle.OpenTwiceIsNoop | obj/src/persistence/PostgresPersistence.js:258-260 | after a successful open, a second open issues nothing and changes nothing |
| Lifecycle.Close | obj/src/persistence/PostgresPersistence.js:290-304 | a no-op when not opened; `NO_CONNECTION` without a connection; closes the connection only when owned, and a failing close of an owned connection rethrows that connection's own error; on success the engine is not opened and has no client, all else unchanged; on failure the engine is unchanged |
| Lifecycle.OwnershipOverCycle | obj/src/persistence/PostgresPersistence.js:143-304 | over setReferences, open and close, the engine opens and closes the connection exactly when none was injected, and ends closed without a client |
| Operations.NonEmptyFilter | obj/src/persistence/PostgresPersistence.js:449-451 | a WHERE clause only for a present, non-empty filter |
| Operations.WhereRulesDiffer | obj/src/persistence/PostgresPersistence.js:505-579 | the COUNT statement of getOneRandom and that of getCountByFilter are the same statement exactly when the filter is not "" |
| Operations.EmptyFilterIsNoFilter | obj/src/persistence/PostgresPersistence.js:440-678 | for the filter "", getPageByFilter, getCountByFilter and deleteByFilter issue exactly the statements they issue for no filter |
| Operations.EmptyFilterDanglingWhere | obj/src/persistence/PostgresPersistence.js:539-579 | for the filter "", getListByFilter and getOneRandom issue the unfiltered SQL followed by ` WHERE ` with nothing after it |
| Operations.CountOf | obj/src/persistence/PostgresPersistence.js:517-519 | the count is 0 unless exactly one row comes back, then that row's count |
| Operations.PageQuery | obj/src/persistence/PostgresPersistence.js:442-458 | projection defaults to `*`; WHERE only for a non-empty filter; ORDER BY only for a present sort; OFFSET only when skip ≥ 0; LIMIT always |
| Operations.GetPageByFilter | obj/src/persistence/PostgresPersistence.js:440-494 | no client: no query; otherwise the page query first, and a second COUNT query with the same WHERE only when the total is asked for and the page query succeeded; items are the converted rows; the total is present exactly when asked for; driver errors propagate |
| Operations.PageAndCountShareWhere | obj/src/persistence/PostgresPersistence.js:449-476 | the COUNT statement getPageByFilter issues for the total carries the WHERE of its page query |
| Operations.PageTotalIsCount | obj/src/persistence/PostgresPersistence.js:440-525 | with the total asked for, getPageByFilter issues the same COUNT statement as getCountByFilter, succeeds exactly when it does, and reports its count as the total, whatever the skip, take, sort and projection |
| Operations.GetCountByFilter | obj/src/persistence/PostgresPersistence.js:505-525 | one COUNT query, WHERE only for a non-empty filter; 0 unless exactly one row comes back; driver errors propagate |
| Operations.GetListByFilter | obj/src/persistence/PostgresPersistence.js:539-563 | one SELECT without OFFSET or LIMIT; WHERE for any present filter, "" included; result is the converted rows |
| Operations.RandomOffset | obj/src/persistence/PostgresPersistence.js:594 | the offset is 0 for a zero count and below the count otherwise |
| Operations.RandomOffsetCoversRange | obj/src/persistence/PostgresPersistence.js:594 | every offset below the count can be drawn |
| Operations.GetOneRandom | obj/src/persistence/PostgresPersistence.js:574-616 | a COUNT query, then, if it succeeded, `SELECT * ... OFFSET k LIMIT 1` with the same WHERE (any present filter); the first returned row converted, or absent when none |
| Operations.RandomOnEmptyTable | obj/src/persistence/PostgresPersistence.js:586-607 | with zero matching rows the fetch uses OFFSET 0, and an empty reply gives an absent item, not an error |
| Operations.InsertStatement | obj/src/persistence/PostgresPersistence.js:629-634 | one bound argument per field of the converted row, the i-th field's value as the i-th argument |
| Operations.Create | obj/src/persistence/PostgresPersistence.js:624-650 | an absent item: nothing issued and nothing returned; otherwise exactly one INSERT of the converted row; the returned row converted back when exactly one comes back |
| Operations.CreateAlignsColumnsAndValues | obj/src/persistence/PostgresPersistence.js:629-636 | in the INSERT of a row with non-empty column names, the i-th column, `$i` and the i-th bound value come from the same field |
| Operations.DeleteByFilter | obj/src/persistence/PostgresPersistence.js:660-678 | one DELETE, WHERE only for a non-empty filter; no result beyond success or the driver's error |
| Operations.Clear | obj/src/persistence/PostgresPersistence.js:310-328 | fails before any query when no table name is set; otherwise one unconditional `DELETE FROM <q(table)>`, a driver error surfacing as `CONNECT_FAILED` with the cause attached |
| Operations.ClearIsUnfilteredDelete | obj/src/persistence/PostgresPersistence.js:310-328 | once a table name is set, clear issues the same DELETE as deleteByFilter with no filter or with "", and succeeds exactly when that does; only the error is wrapped differently |
| Resolver.ValidateConnection | obj/src/connect/PostgresConnectionResolver.js:69-85 | valid exactly with a non-null URI or with host, port and database all set; otherwise `NO_HOST`, then `NO_PORT`, then `NO_DATABASE`, in that order |
| Resolver.UriShortCircuits | obj/src/connect/PostgresConnectionResolver.js:70-72 | an endpoint with a URI is valid whatever its host, port and database |
| Resolver.ValidateEach | obj/src/connect/PostgresConnectionResolver.js:90-92 | success exactly when every endpoint is valid; otherwise the error of the first invalid endpoint in list order |
| Resolver.ValidateConnections | obj/src/connect/PostgresConnectionResolver.js:86-93 | `NO_CONNECTION` for an absent or empty list; otherwise success exactly when all endpoints are valid, else the first invalid endpoint's error |
| Resolver.MissingHostFails | obj/src/connect/PostgresConnectionResolver.js:86-93 | any endpoint without URI and host makes validation fail, wherever it sits in the list |
| Resolver.AllHostless | obj/src/connect/PostgresConnectionResolver.js:73-76 | when no endpoint has a URI or host, the error is `NO_HOST` |
| Resolver.Overlay | obj/src/connect/PostgresConnectionResolver.js:97-110 | one endpoint overwrites exactly the keys it supplies a truthy value for; other keys keep their values |
| Resolver.ComposeConnections | obj/src/connect/PostgresConnectionResolver.js:94-110 | a key is present exactly when some endpoint supplies a truthy value for it, and it holds the last such endpoint's value |
| Resolver.ComposeConfig | obj/src/connect/PostgresConnectionResolver.js:94-121 | the connection keys as composed; `user` and `password` present exactly when a credential is present and the field is truthy, each independently |
| Resolver.UriAndHostBothComposed | obj/src/connect/PostgresConnectionResolver.js:98-109 | a URI does not suppress host, port or database: all four keys are present together |
| Resolver.EmptyUriValidatesButComposesNothing | obj/src/connect/PostgresConnectionResolver.js:69-100 | an endpoint whose only field is an empty URI passes validation yet yields an empty configuration |
| Resolver.Resolve | obj/src/connect/PostgresConnectionResolver.js:128-137 | validation first: an invalid list yields its error, no credential lookup and no config; a valid one yields the composed config |
| Resolver.CredentialNeverFails | obj/src/connect/PostgresConnectionResolver.js:133-135 | whether resolve fails does not depend on the credential |

## Left out

- The PostgreSQL driver, `PostgresConnection` and the socket pool are foreign I/O. Their answers are inputs, and the client handle is an opaque number.
- The async/Promise machinery is left out; each operation is one sequential function. Logging through `CompositeLogger` is left out because it never affects control flow.
- Correlation ids and human-readable messages are left out; errors carry their type and stable code only.
- Library internals are inputs. `DependencyResolver.getOneOptional` becomes the `found` argument of `SetReferences`. `ConfigParams.setDefaults` and its getters become `EngineConfig`. `PagingParams.getSkip`/`getTake`/`total` become `Paging`, and an absent paging argument reads as skip -1, the configured page size and no total. `LongConverter.toLong` is folded in: COUNT rows are given as integers. `ConnectionResolver.resolveAll` and `CredentialResolver.lookup` become arguments of `Resolve`. Failures of these library calls are not modelled.
- `Math.random`/`Math.trunc` in `getOneRandom` are left out because they are float randomness. The caller supplies a draw `pick`, and every offset the source can produce is reachable.
- `convertToPublic`/`convertFromPublic` are function parameters applied to present rows only. The source also passes null through `convertToPublic` in `create` and `getOneRandom`, and the model assumes the hook returns null for null, as the default identity hook does.
- `defineSchema` is a subclass hook: `Open` takes it as a function on the statement list.
- The configuration and references that `createConnection` passes to a new connection are left out, as are the `_config` and `_references` fields. They only feed the connection component.
- `isOpen()` only reads the opened flag and has no separate member. `configure` and `setReferences` of the resolver only forward to the library resolvers and are left out.
- JavaScript numbers are doubles. Skip, take, counts, ports and `$n` positions are assumed to be integers below 2^53 in magnitude, where JavaScript writes plain decimal digits. The model's integers are unbounded, and `Text.IntToString` does not reproduce the exponent form (`1e+21`) JavaScript writes from 10^21 up.
- Values are JavaScript values restricted to null, booleans, integers and strings: no floats, NaN or nested objects. `undefined` is treated as null, so an unset table name renders as `null` in SQL text, where the source would write `undefined` for a never-configured name.
- A row is an ordered list of fields standing for an object's own keys in enumeration order. JavaScript's rule that integer-like keys enumerate first is taken as already applied to that order.
- Lifecycle.Configure: the setting arrives already classified as missing, an integer, or not an integer. A missing key takes the default 100 from the defaults table (obj/src/persistence/PostgresPersistence.js:684); a present value that does not convert keeps the current size. The conversion rules of the library getters that do the classifying are not modelled.
- obj/src/build/DefaultPostgresFactory.js only registers a type with an external factory. obj/test/persistence/DummyJsonPostgresPersistence.js is a test fixture built on classes that are not part of this model.

=== FILE: driver.dfy ===
/**
 * The vocabulary shared with the PostgreSQL driver: column values, rows as
 * the driver returns them, the statements the engine submits, the replies
 * it receives and the errors the core raises.
 */
module Driver {
  import opened Wrappers

  /** A column or option value; JavaScript numbers are limited to integers here. */
  datatype Value = Null | Bool(b: bool) | Num(n: int) | Str(s: string)

  /** JavaScript truthiness of a value. */
  predicate Truthy(v: Value) {
    match v
    case Null => false
    case Bool(b) => b
    case Num(n) => n != 0
    case Str(s) => s != ""
  }

  /**
   * A row is an object's own properties in JavaScript enumeration order,
   * the order `Object.keys`, `Object.values` and `for ... in` all follow.
   */
  datatype Field = Field(name: string, value: Value)
  type Row = seq<Field>

  function Keys(row: Row): (ks: seq<string>)
    ensures |ks| == |row|
    ensures forall i :: 0 <= i < |row| ==> ks[i] == row[i].name
  {
    seq(|row|, i requires 0 <= i < |row| => row[i].name)
  }

  /** Property access `row.name`: the value of the first field so named. */
  function Lookup(row: Row, name: string): (r: Option<Value>)
    ensures r.None? <==> forall i :: 0 <= i < |row| ==> row[i].name != name
    ensures r.Some? ==> exists i :: 0 <= i < |row| && row[i] == Field(name, r.value)
                                      && forall j :: 0 <= j < i ==> row[j].name != name
  {
    if |row| == 0 then None
    else if row[0].name == name then Some(row[0].value)
    else Lookup(row[1..], name)
  }

  /** A statement submitted to the driver: SQL text and its bound `$n` values. */
  datatype Statement = Statement(sql: string, args: seq<Value>)

  function Plain(sql: string): Statement {
    Statement(sql, [])
  }

  /** The driver's answer to one statement: a payload, or the driver's own error. */
  type Reply<T> = Result<T, string>

  /** The errors the core raises, each with its stable code. */
  datatype Error =
      /** ConfigException: the connection settings are incomplete. */
    | ConfigError(code: string)
      /** InvalidStateException: the component is not in a state to do this. */
    | InvalidStateError(code: string)
      /** ConnectionException, optionally wrapping the driver's error. */
    | ConnectionError(code: string, cause: Option<string>)
      /** An error of the driver or the connection component, rethrown unchanged. */
    | Propagated(reason: string)
      /** A plain `Error` with a message. */
    | GenericError(message: string)
      /** The TypeError of calling `query` on a client handle that is not set. */
    | NoClient

  /** What an operation did on the driver and how it ended. */
  datatype Run<T> = Run(issued: seq<Statement>, outcome: Result<T, Error>)
}

=== FILE: lifecycle.dfy ===
/**
 * The persistence engine's state and its lifecycle: configure,
 * setReferences / unsetReferences, and open / close with the
 * connection-ownership flag. The connection component is an oracle: its
 * answers (whether its own open fails, whether it reports open, the client
 * handle) are inputs.
 */
module Lifecycle {
  import opened Wrappers
  import opened Driver
  import opened Schema

  /** The connection the engine works through: one found in the references, or one it created itself. */
  datatype Connection = Injected(id: nat) | Created

  /**
   * The fields of one PostgresPersistence instance. `client` is the handle
   * obtained from the connection (an opaque number here).
   */
  datatype Engine = Engine(
    tableName: Option<string>,
    maxPageSize: int,
    schema: seq<string>,
    connection: Option<Connection>,
    localConnection: bool,
    isOpened: bool,
    client: Option<nat>,
    databaseName: Option<string>)

  const DefaultMaxPageSize: int := 100

  /** The constructor: a table name, the default page size, nothing else set. */
  function Initial(tableName: Option<string>): (e: Engine)
    ensures e.tableName == tableName && e.maxPageSize == DefaultMaxPageSize
    ensures e.schema == [] && e.connection.None? && e.client.None?
    ensures !e.isOpened && !e.localConnection && e.databaseName.None?
  {
    Engine(tableName, DefaultMaxPageSize, [], None, false, false, None, None)
  }

  /**
   * The `options.max_page_size` key as configure sees it: missing (the
   * defaults then supply 100), an integer, or a value that does not
   * convert to one.
   */
  datatype PageSizeSetting = Missing | Integer(value: int) | NotInteger

  /**
   * The settings configure reads. `collection` and `table` are None when
   * the key is missing or null.
   */
  datatype EngineConfig = EngineConfig(maxPageSize: PageSizeSetting, collection: Option<string>, table: Option<string>)

  /**
   * configure: the defaults are laid under the given settings first, so a
   * missing page size resets it to 100, while one that is not an integer
   * keeps the current size. `table` wins over `collection`, which wins over
   * the current name; nothing else changes.
   */
  function Configure(e: Engine, config: EngineConfig): (r: Engine)
    ensures config.maxPageSize.Missing? ==> r.maxPageSize == DefaultMaxPageSize
    ensures config.maxPageSize.Integer? ==> r.maxPageSize == config.maxPageSize.value
    ensures config.maxPageSize.NotInteger? ==> r.maxPageSize == e.maxPageSize
    ensures config.table.Some? ==> r.tableName == config.table
    ensures config.table.None? && config.collection.Some? ==> r.tableName == config.collection
    ensures config.table.None? && config.collection.None? ==> r.tableName == e.tableName
    ensures r == e.(maxPageSize := r.maxPageSize, tableName := r.tableName)
  {
    var maxPageSize := match config.maxPageSize
      case Missing => DefaultMaxPageSize
      case Integer(n) => n
      case NotInteger => e.maxPageSize;
    var fromCollection := if config.collection.Some? then config.collection else e.tableName;
    var fromTable := if config.table.Some? then config.table else fromCollection;
    e.(maxPageSize := maxPageSize, tableName := fromTable)
  }

  /**
   * A page size set by one configure does not survive a later configure
   * that omits the key: the default 100 comes back.
   */
  lemma ConfigureForgetsEarlierPageSize(e: Engine, first: EngineConfig, second: EngineConfig)
    requires second.maxPageSize.Missing?
    ensures Configure(Configure(e, first), second).maxPageSize == Initial(e.tableName).maxPageSize
  {
  }

  /** Configuring twice with the same settings is configuring once. */
  lemma ConfigureIdempotent(e: Engine, config: EngineConfig)
    ensures Configure(Configure(e, config), config) == Configure(e, config)
  {
  }

  /**
   * setReferences: use the connection found in the references, or create a
   * local one; the engine owns the connection exactly when none was found.
   */
  function SetReferences(e: Engine, found: Option<Connection>): (r: Engine)
    ensures r.connection.Some?
    ensures r.localConnection <==> found.None?
    ensures found.Some? ==> r.connection == found
    ensures found.None? ==> r.connection == Some(Created)
    ensures r == e.(connection := r.connection, localConnection := r.localConnection)
  {
    if found.None? then e.(connection := Some(Created), localConnection := true)
    else e.(connection := found, localConnection := false)
  }

  /** unsetReferences: forgets the connection, and only the connection. */
  function UnsetReferences(e: Engine): (r: Engine)
    ensures r.connection.None?
    ensures r == e.(connection := None)
  {
    e.(connection := None)
  }

  /** What open and close do to the outside world, besides queries. */
  datatype Action = OpenConnection | CloseConnection | Issue(statement: Statement)

  function IssueAll(statements: seq<Statement>): (r: seq<Action>)
    ensures |r| == |statements|
    ensures forall i :: 0 <= i < |statements| ==> r[i] == Issue(statements[i])
  {
    seq(|statements|, i requires 0 <= i < |statements| => Issue(statements[i]))
  }

  /** The result of a lifecycle call: the engine afterwards, what it did, and how it ended. */
  datatype Transition = Transition(engine: Engine, actions: seq<Action>, outcome: Result<(), Error>)

  /** The connection component's answers during open. */
  datatype ConnectReplies = ConnectReplies(openError: Option<string>, reportsOpen: bool, client: nat, databaseName: string)

  /**
   * open: a no-op once opened. Otherwise make sure a connection exists (a
   * local one if none), open it only when it is local, insist that it
   * reports open, take its client handle, let the schema hook `define`
   * rebuild the statement list and bootstrap the schema; the engine is
   * opened only once the bootstrap succeeded.
   */
  function Open(e: Engine, connect: ConnectReplies, define: seq<string> -> seq<string>,
                replies: SchemaReplies): (r: Transition)
    ensures e.isOpened ==> r == Transition(e, [], Success(()))
    ensures !e.isOpened && e.connection.Some? ==>
              r.engine.connection == e.connection && r.engine.localConnection == e.localConnection
    ensures !e.isOpened && e.connection.None? ==> r.engine.connection == Some(Created) && r.engine.localConnection
    ensures !e.isOpened ==> (OpenConnection in r.actions <==> r.engine.localConnection)
    ensures CloseConnection !in r.actions
    ensures forall i :: 0 < i < |r.actions| ==> r.actions[i].Issue?
    ensures r.outcome != Failure(InvalidStateError("NO_CONNECTION"))
    ensures r.engine.isOpened <==> e.isOpened || r.outcome.Success?
    ensures !e.isOpened && r.engine.localConnection && connect.openError.Some? ==>
              && r.outcome == Failure(Propagated(connect.openError.value)) && r.actions == [OpenConnection]
              && r.engine == e.(connection := r.engine.connection, localConnection := r.engine.localConnection)
    ensures !e.isOpened && !(r.engine.localConnection && connect.openError.Some?) && !connect.reportsOpen ==>
              && r.outcome == Failure(ConnectionError("CONNECT_FAILED", None))
              && (forall i :: 0 <= i < |r.actions| ==> !r.actions[i].Issue?)
              && r.engine == e.(connection := r.engine.connection, localConnection := r.engine.localConnection)
    ensures !e.isOpened && connect.reportsOpen && !(r.engine.localConnection && connect.openError.Some?) ==>
              && r.engine == e.(connection := r.engine.connection, localConnection := r.engine.localConnection,
                                client := Some(connect.client), databaseName := Some(connect.databaseName),
                                schema := define(e.schema), isOpened := r.outcome.Success?)
              && var boot := CreateSchema(e.tableName, define(e.schema), replies);
                 && r.actions == (if r.engine.localConnection then [OpenConnection] else []) + IssueAll(boot.issued)
                 && r.outcome == boot.outcome
  {
    if e.isOpened then Transition(e, [], Success(()))
    else
      var owned := if e.connection.None? then e.(connection := Some(Created), localConnection := true) else e;
      var opening := if owned.localConnection then [OpenConnection] else [];
      if owned.localConnection && connect.openError.Some? then
        Transition(owned, opening, Failure(Propagated(connect.openError.value)))
      else
        // A connection was created just above when none was set, so the
        // source's NO_CONNECTION check that follows can never fire.
        assert owned.connection.Some?;
        if !connect.reportsOpen then
          Transition(owned, opening, Failure(ConnectionError("CONNECT_FAILED", None)))
        else
          var bound := owned.(isOpened := false, client := Some(connect.client),
                              databaseName := Some(connect.databaseName));
          var defined := bound.(schema := define(bound.schema));
          var boot := CreateSchema(defined.tableName, defined.schema, replies);
          var actions := opening + IssueAll(boot.issued);
          if boot.outcome.Failure? then Transition(defined, actions, boot.outcome)
          else Transition(defined.(isOpened := true), actions, Success(()))
  }

  /** A second open after a successful one issues nothing and changes nothing. */
  lemma OpenTwiceIsNoop(e: Engine, c1: ConnectReplies, d1: seq<string> -> seq<string>, s1: SchemaReplies,
                        c2: ConnectReplies, d2: seq<string> -> seq<string>, s2: SchemaReplies)
    requires Open(e, c1, d1, s1).outcome.Success?
    ensures var first := Open(e, c1, d1, s1).engine;
            Open(first, c2, d2, s2) == Transition(first, [], Success(()))
  {
  }

  /**
   * close: a no-op unless opened; fails without a connection; closes the
   * connection only when the engine owns it; then the engine is closed and
   * the client handle dropped. A failing close of the connection leaves the
   * engine as it was.
   */
  function Close(e: Engine, closeError: Option<string>): (r: Transition)
    ensures !e.isOpened ==> r == Transition(e, [], Success(()))
    ensures e.isOpened && e.connection.None? ==> r == Transition(e, [], Failure(InvalidStateError("NO_CONNECTION")))
    ensures e.isOpened && e.connection.Some? ==> r.actions == if e.localConnection then [CloseConnection] else []
    ensures OpenConnection !in r.actions
    ensures e.isOpened && r.outcome.Success? ==> r.engine == e.(isOpened := false, client := None)
    ensures r.outcome.Failure? ==> r.engine == e
    ensures e.isOpened && e.connection.Some? && e.localConnection && closeError.Some? ==>
              r.outcome == Failure(Propagated(closeError.value))
    ensures r.outcome.Failure? <==> e.isOpened && (e.connection.None? || (e.localConnection && closeError.Some?))
  {
    if !e.isOpened then Transition(e, [], Success(()))
    else if e.connection.None? then Transition(e, [], Failure(InvalidStateError("NO_CONNECTION")))
    else if e.localConnection && closeError.Some? then Transition(e, [CloseConnection], Failure(Propagated(closeError.value)))
    else Transition(e.(isOpened := false, client := None), if e.localConnection then [CloseConnection] else [], Success(()))
  }

  /**
   * Ownership over a whole open/close cycle: the engine opens and later
   * closes the connection exactly when no connection was injected, and an
   * injected connection is never touched.
   */
  lemma OwnershipOverCycle(e: Engine, found: Option<Connection>, connect: ConnectReplies,
                           define: seq<string> -> seq<string>, replies: SchemaReplies)
    requires !e.isOpened
    requires Open(SetReferences(e, found), connect, define, replies).outcome.Success?
    ensures var first := Open(SetReferences(e, found), connect, define, replies);
            var closed := Close(first.engine, None);
            && (OpenConnection in first.actions <==> found.None?)
            && (CloseConnection in closed.actions <==> found.None?)
            && closed.outcome.Success?
            && !closed.engine.isOpened && closed.engine.client.None?
  {
  }
}

=== FILE: operations.dfy ===
/**
 * The generic data operations of the persistence engine. Each returns the
 * statements it issues, in order, and its outcome; the driver's replies are
 * inputs, and the subclass conversion hooks are function parameters.
 */
module Operations {
  import opened Wrappers
  import opened Text
  import opened Driver
  import opened Sql
  import opened Lifecycle

  /**
   * WHERE rule of getPageByFilter, getCountByFilter and deleteByFilter: only
   * a present, non-empty filter adds a WHERE clause.
   */
  function NonEmptyFilter(filter: Option<string>): (w: Option<string>)
    ensures w.Some? <==> filter.Some? && filter.value != ""
    ensures w.Some? ==> w == filter
  {
    if filter.Some? && filter.value != "" then filter else None
  }

  /** The count reported by a COUNT(*) reply: 0 unless exactly one row came back. */
  function CountOf(rows: seq<int>): (n: int)
    ensures |rows| != 1 ==> n == 0
    ensures |rows| == 1 ==> n == rows[0]
  {
    if |rows| == 1 then rows[0] else 0
  }

  function MapRows(toPublic: Row -> Row, rows: seq<Row>): (r: seq<Row>)
    ensures |r| == |rows|
    ensures forall i :: 0 <= i < |rows| ==> r[i] == toPublic(rows[i])
  {
    seq(|rows|, i requires 0 <= i < |rows| => toPublic(rows[i]))
  }

  /** The results of PagingParams.getSkip(-1), getTake(maxPageSize) and its `total` flag. */
  datatype Paging = Paging(skip: int, take: int, total: bool)

  /** A page of converted items, with the total count when it was asked for. */
  datatype DataPage = DataPage(items: seq<Row>, total: Option<int>)

  /** The main query of getPageByFilter. */
  function PageQuery(e: Engine, filter: Option<string>, paging: Paging, sort: Option<string>,
                     select: Option<string>): (q: Query)
    ensures q.Select? && q.table == TableRef(e.tableName)
    ensures q.projection == if select.Some? then select.value else "*"
    ensures q.where == NonEmptyFilter(filter)
    ensures q.orderBy == sort
    ensures q.offset.Some? <==> paging.skip >= 0
    ensures q.offset.Some? ==> q.offset.value == paging.skip
    ensures q.limit == Some(paging.take)
  {
    Select(select.GetOr("*"), TableRef(e.tableName), NonEmptyFilter(filter), sort,
           if paging.skip >= 0 then Some(paging.skip) else None, Some(paging.take))
  }

  /**
   * getPageByFilter: one SELECT, then a COUNT(*) with the same WHERE only
   * when the total is asked for. An absent paging argument reads as no skip,
   * the configured page size and no total.
   */
  function GetPageByFilter(e: Engine, filter: Option<string>, paging: Option<Paging>, sort: Option<string>,
                           select: Option<string>, pageReply: Reply<seq<Row>>, countReply: Reply<seq<int>>,
                           toPublic: Row -> Row): (r: Run<DataPage>)
    ensures e.client.None? ==> r == Run([], Failure(NoClient))
    ensures var p := paging.GetOr(Paging(-1, e.maxPageSize, false));
            && (e.client.Some? ==> |r.issued| >= 1 && r.issued[0] == Plain(Render(PageQuery(e, filter, p, sort, select))))
            && (|r.issued| == 2 <==> e.client.Some? && pageReply.Success? && p.total)
            && |r.issued| <= 2
            && (|r.issued| == 2 ==> r.issued[1] == Plain(Render(CountRows(TableRef(e.tableName), NonEmptyFilter(filter)))))
            && (r.outcome.Success? <==> e.client.Some? && pageReply.Success? && (p.total ==> countReply.Success?))
            && (r.outcome.Success? && pageReply.Success? ==> r.outcome.value.items == MapRows(toPublic, pageReply.value))
            && (r.outcome.Success? ==> (r.outcome.value.total.Some? <==> p.total))
            && (r.outcome.Success? && p.total && countReply.Success? ==>
                  r.outcome.value.total == Some(CountOf(countReply.value)))
            && (e.client.Some? && pageReply.Failure? ==> r.outcome == Failure(Propagated(pageReply.error)))
            && (e.client.Some? && pageReply.Success? && p.total && countReply.Failure? ==>
                  r.outcome == Failure(Propagated(countReply.error)))
  {
    if e.client.None? then Run([], Failure(NoClient))
    else
      var p := paging.GetOr(Paging(-1, e.maxPageSize, false));
      var main := Plain(Render(PageQuery(e, filter, p, sort, select)));
      match pageReply
      case Failure(reason) => Run([main], Failure(Propagated(reason)))
      case Success(rows) =>
        var items := MapRows(toPublic, rows);
        if !p.total then Run([main], Success(DataPage(items, None)))
        else
          var count := Plain(Render(CountRows(TableRef(e.tableName), NonEmptyFilter(filter))));
          match countReply
          case Failure(reason) => Run([main, count], Failure(Propagated(reason)))
          case Success(counts) => Run([main, count], Success(DataPage(items, Some(CountOf(counts)))))
  }

  /** getCountByFilter: one COUNT(*) query; the count is 0 unless exactly one row comes back. */
  function GetCountByFilter(e: Engine, filter: Option<string>, reply: Reply<seq<int>>): (r: Run<int>)
    ensures e.client.None? ==> r == Run([], Failure(NoClient))
    ensures e.client.Some? ==> r.issued == [Plain(Render(CountRows(TableRef(e.tableName), NonEmptyFilter(filter))))]
    ensures e.client.Some? && reply.Failure? ==> r.outcome == Failure(Propagated(reply.error))
    ensures e.client.Some? && reply.Success? ==> r.outcome.Success?
    ensures r.outcome.Success? && |reply.value| != 1 ==> r.outcome.value == 0
    ensures r.outcome.Success? && |reply.value| == 1 ==> r.outcome.value == reply.value[0]
  {
    if e.client.None? then Run([], Failure(NoClient))
    else
      var query := Plain(Render(CountRows(TableRef(e.tableName), NonEmptyFilter(filter))));
      match reply
      case Failure(reason) => Run([query], Failure(Propagated(reason)))
      case Success(rows) => Run([query], Success(CountOf(rows)))
  }

  /**
   * The COUNT query getPageByFilter issues for the total filters by the same
   * WHERE as its page query.
   */
  lemma PageAndCountShareWhere(e: Engine, filter: Option<string>, p: Paging, sort: Option<string>,
                               select: Option<string>, pageReply: Reply<seq<Row>>, countReply: Reply<seq<int>>,
                               toPublic: Row -> Row)
    requires e.client.Some? && pageReply.Success? && p.total
    ensures var r := GetPageByFilter(e, filter, Some(p), sort, select, pageReply, countReply, toPublic);
            r.issued[1] == Plain(Render(CountRows(TableRef(e.tableName), PageQuery(e, filter, p, sort, select).where)))
  {
  }

  /**
   * The total of a page is what getCountByFilter reports for the same
   * filter: the same COUNT statement and the same count, whatever the skip,
   * take, sort and projection of the page.
   */
  lemma PageTotalIsCount(e: Engine, filter: Option<string>, p: Paging, sort: Option<string>,
                         select: Option<string>, pageReply: Reply<seq<Row>>, countReply: Reply<seq<int>>,
                         toPublic: Row -> Row)
    requires e.client.Some? && pageReply.Success? && p.total
    ensures var page := GetPageByFilter(e, filter, Some(p), sort, select, pageReply, countReply, toPublic);
            var count := GetCountByFilter(e, filter, countReply);
            && page.issued[1] == count.issued[0]
            && (page.outcome.Success? <==> count.outcome.Success?)
            && (count.outcome.Success? ==> page.outcome.value.total == Some(count.outcome.value))
            && (count.outcome.Failure? ==> page.outcome.error == count.outcome.error)
  {
  }

  /** getListByFilter: one unpaged SELECT; any present filter, even "", adds a WHERE clause. */
  function GetListByFilter(e: Engine, filter: Option<string>, sort: Option<string>, select: Option<string>,
                           reply: Reply<seq<Row>>, toPublic: Row -> Row): (r: Run<seq<Row>>)
    ensures e.client.None? ==> r == Run([], Failure(NoClient))
    ensures e.client.Some? ==> |r.issued| == 1
    ensures e.client.Some? ==>
              var q := Select(select.GetOr("*"), TableRef(e.tableName), filter, sort, None, None);
              r.issued[0] == Plain(Render(q))
    ensures e.client.Some? && reply.Failure? ==> r.outcome == Failure(Propagated(reply.error))
    ensures e.client.Some? && reply.Success? ==> r.outcome == Success(MapRows(toPublic, reply.value))
  {
    if e.client.None? then Run([], Failure(NoClient))
    else
      var query := Plain(Render(Select(select.GetOr("*"), TableRef(e.tableName), filter, sort, None, None)));
      match reply
      case Failure(reason) => Run([query], Failure(Propagated(reason)))
      case Success(rows) => Run([query], Success(MapRows(toPublic, rows)))
  }

  /**
   * The offset `Math.trunc(Math.random() * count)` picks, with `pick`
   * standing for the random draw: within [0, count), and 0 when count is 0.
   */
  function RandomOffset(count: nat, pick: nat): (k: nat)
    ensures count == 0 ==> k == 0
    ensures count > 0 ==> k < count
  {
    if count == 0 then 0 else pick % count
  }

  /** Every offset the source can pick is reachable by some draw. */
  lemma RandomOffsetCoversRange(count: nat, k: nat)
    requires k < count
    ensures RandomOffset(count, k) == k
  {
  }

  /**
   * getOneRandom: count the matching rows, then fetch one row at a random
   * offset; any present filter, even "", adds a WHERE clause to both. The
   * result is absent when the second query returns no row.
   */
  function GetOneRandom(e: Engine, filter: Option<string>, countReply: Reply<seq<nat>>, pick: nat,
                        itemReply: Reply<seq<Row>>, toPublic: Row -> Row): (r: Run<Option<Row>>)
    ensures e.client.None? ==> r == Run([], Failure(NoClient))
    ensures e.client.Some? ==>
              1 <= |r.issued| <= 2 && r.issued[0] == Plain(Render(CountRows(TableRef(e.tableName), filter)))
    ensures |r.issued| == 2 <==> e.client.Some? && countReply.Success?
    ensures |r.issued| == 2 ==>
              var offset := RandomOffset(CountOf(countReply.value), pick);
              r.issued[1] == Plain(Render(Select("*", TableRef(e.tableName), filter, None, Some(offset), Some(1))))
    ensures e.client.Some? && countReply.Failure? ==> r.outcome == Failure(Propagated(countReply.error))
    ensures |r.issued| == 2 && itemReply.Failure? ==> r.outcome == Failure(Propagated(itemReply.error))
    ensures |r.issued| == 2 && itemReply.Success? ==>
              r.outcome == Success(if |itemReply.value| > 0 then Some(toPublic(itemReply.value[0])) else None)
  {
    if e.client.None? then Run([], Failure(NoClient))
    else
      var count := Plain(Render(CountRows(TableRef(e.tableName), filter)));
      match countReply
      case Failure(reason) => Run([count], Failure(Propagated(reason)))
      case Success(counts) =>
        var offset := RandomOffset(CountOf(counts), pick);
        var fetch := Plain(Render(Select("*", TableRef(e.tableName), filter, None, Some(offset), Some(1))));
        match itemReply
        case Failure(reason) => Run([count, fetch], Failure(Propagated(reason)))
        case Success(rows) =>
          Run([count, fetch], Success(if |rows| > 0 then Some(toPublic(rows[0])) else None))
  }

  /** With no matching row the random fetch starts at offset 0, and an empty reply gives an absent item, not an error. */
  lemma RandomOnEmptyTable(e: Engine, filter: Option<string>, pick: nat, toPublic: Row -> Row)
    requires e.client.Some?
    ensures var r := GetOneRandom(e, filter, Success([0]), pick, Success([]), toPublic);
            && r.outcome == Success(None)
            && r.issued[1] == Plain(Render(Select("*", TableRef(e.tableName), filter, None, Some(0), Some(1))))
  {
  }

  /**
   * The two WHERE rules, seen in the statements issued: the COUNT query of
   * getOneRandom (any present filter) and that of getCountByFilter (only a
   * non-empty filter) are the same statement exactly when the filter is not "".
   */
  lemma WhereRulesDiffer(e: Engine, filter: Option<string>, countReply: Reply<seq<nat>>, pick: nat,
                         itemReply: Reply<seq<Row>>, toPublic: Row -> Row, reply: Reply<seq<int>>)
    requires e.client.Some?
    ensures GetOneRandom(e, filter, countReply, pick, itemReply, toPublic).issued[0]
            == GetCountByFilter(e, filter, reply).issued[0]
            <==> filter != Some("")
  {
    var random := GetOneRandom(e, filter, countReply, pick, itemReply, toPublic).issued[0].sql;
    var counted := GetCountByFilter(e, filter, reply).issued[0].sql;
    if filter == Some("") {
      assert |random| == |counted| + |" WHERE "|;
    }
  }

  /** The filter "": getPageByFilter, getCountByFilter and deleteByFilter issue exactly what they issue for no filter. */
  lemma EmptyFilterIsNoFilter(e: Engine, paging: Option<Paging>, sort: Option<string>, select: Option<string>,
                              pageReply: Reply<seq<Row>>, countReply: Reply<seq<int>>, deleteReply: Reply<()>,
                              toPublic: Row -> Row)
    ensures GetPageByFilter(e, Some(""), paging, sort, select, pageReply, countReply, toPublic).issued
            == GetPageByFilter(e, None, paging, sort, select, pageReply, countReply, toPublic).issued
    ensures GetCountByFilter(e, Some(""), countReply).issued == GetCountByFilter(e, None, countReply).issued
    ensures DeleteByFilter(e, Some(""), deleteReply).issued == DeleteByFilter(e, None, deleteReply).issued
  {
    assert NonEmptyFilter(Some("")) == NonEmptyFilter(None);
  }

  lemma SelectEmptyWhere(projection: string, table: string)
    ensures Render(Select(projection, table, Some(""), None, None, None))
            == Render(Select(projection, table, None, None, None, None)) + " WHERE "
  {
    var head := "SELECT " + projection + " FROM " + table;
    assert Clause("WHERE", Some("")) == " WHERE ";
    assert Render(Select(projection, table, None, None, None, None)) == head + "" + "" + "" + "";
  }

  lemma CountEmptyWhere(table: string)
    ensures Render(CountRows(table, Some(""))) == Render(CountRows(table, None)) + " WHERE "
  {
    assert Clause("WHERE", Some("")) == " WHERE ";
  }

  /** The filter "": getListByFilter and getOneRandom append a WHERE with nothing after it. */
  lemma EmptyFilterDanglingWhere(e: Engine, select: Option<string>, listReply: Reply<seq<Row>>,
                                 countReply: Reply<seq<nat>>, pick: nat, itemReply: Reply<seq<Row>>,
                                 toPublic: Row -> Row)
    requires e.client.Some?
    ensures GetListByFilter(e, Some(""), None, select, listReply, toPublic).issued[0].sql
            == GetListByFilter(e, None, None, select, listReply, toPublic).issued[0].sql + " WHERE "
    ensures GetOneRandom(e, Some(""), countReply, pick, itemReply, toPublic).issued[0].sql
            == GetOneRandom(e, None, countReply, pick, itemReply, toPublic).issued[0].sql + " WHERE "
  {
    SelectEmptyWhere(select.GetOr("*"), TableRef(e.tableName));
    CountEmptyWhere(TableRef(e.tableName));
  }

  /** The INSERT of create for a converted row: quoted columns, `$n` placeholders, values bound in the same order. */
  function InsertStatement(e: Engine, row: Row): (s: Statement)
    ensures |s.args| == |row|
    ensures forall i :: 0 <= i < |row| ==> s.args[i] == row[i].value
  {
    var columns := GenerateColumns(Keys(row));
    var params := GenerateParameters(|row|);
    var values := GenerateValues(row);
    Statement(Render(InsertRow(TableRef(e.tableName), columns, params)), values)
  }

  /**
   * create: nothing at all for an absent item; otherwise one INSERT ...
   * RETURNING * of the converted row, and the returned row converted back
   * when exactly one comes back.
   */
  function Create(e: Engine, item: Option<Row>, fromPublic: Row -> Row, toPublic: Row -> Row,
                  reply: Reply<seq<Row>>): (r: Run<Option<Row>>)
    ensures item.None? ==> r == Run([], Success(None))
    ensures item.Some? && e.client.None? ==> r == Run([], Failure(NoClient))
    ensures item.Some? && e.client.Some? ==> r.issued == [InsertStatement(e, fromPublic(item.value))]
    ensures item.Some? && e.client.Some? && reply.Failure? ==> r.outcome == Failure(Propagated(reply.error))
    ensures item.Some? && e.client.Some? && reply.Success? ==>
              r.outcome == Success(if |reply.value| == 1 then Some(toPublic(reply.value[0])) else None)
  {
    if item.None? then Run([], Success(None))
    else if e.client.None? then Run([], Failure(NoClient))
    else
      var insert := InsertStatement(e, fromPublic(item.value));
      match reply
      case Failure(reason) => Run([insert], Failure(Propagated(reason)))
      case Success(rows) => Run([insert], Success(if |rows| == 1 then Some(toPublic(rows[0])) else None))
  }

  /**
   * In the INSERT of a row with non-empty column names, the i-th column,
   * the i-th placeholder `$i` and the i-th bound value all come from the
   * i-th field.
   */
  lemma CreateAlignsColumnsAndValues(e: Engine, row: Row)
    requires forall i :: 0 <= i < |row| ==> row[i].name != ""
    ensures var s := InsertStatement(e, row);
            && s.sql == Render(InsertRow(TableRef(e.tableName), Join(",", QuoteAll(Keys(row))),
                                         Join(",", Placeholders(|row|))))
            && |QuoteAll(Keys(row))| == |Placeholders(|row|)| == |s.args| == |row|
            && forall i :: 0 <= i < |row| ==>
                 QuoteAll(Keys(row))[i] == QuoteName(row[i].name)
                 && Placeholders(|row|)[i] == Placeholder(i + 1)
                 && s.args[i] == row[i].value
  {
    InsertListsAligned(row);
  }

  /** deleteByFilter: one DELETE; the affected count is only logged, nothing is returned. */
  function DeleteByFilter(e: Engine, filter: Option<string>, reply: Reply<()>): (r: Run<()>)
    ensures e.client.None? ==> r == Run([], Failure(NoClient))
    ensures e.client.Some? ==> r.issued == [Plain(Render(DeleteRows(TableRef(e.tableName), NonEmptyFilter(filter))))]
    ensures e.client.Some? ==> r.outcome == if reply.Failure? then Failure(Propagated(reply.error)) else Success(())
  {
    if e.client.None? then Run([], Failure(NoClient))
    else
      var query := Plain(Render(DeleteRows(TableRef(e.tableName), NonEmptyFilter(filter))));
      match reply
      case Failure(reason) => Run([query], Failure(Propagated(reason)))
      case Success(_) => Run([query], Success(()))
  }

  /**
   * clear: fails before any query when no table name is set; otherwise one
   * unconditional DELETE, a driver failure surfacing as CONNECT_FAILED with
   * the driver's error as cause.
   */
  function Clear(e: Engine, reply: Reply<()>): (r: Run<()>)
    ensures e.tableName.None? ==> r == Run([], Failure(GenericError("Table name is not defined")))
    ensures e.tableName.Some? && e.client.None? ==> r == Run([], Failure(NoClient))
    ensures e.tableName.Some? && e.client.Some? ==>
              && r.issued == [Plain("DELETE FROM " + QuoteIdentifier(e.tableName).value)]
              && r.outcome == if reply.Failure? then Failure(ConnectionError("CONNECT_FAILED", Some(reply.error)))
                              else Success(())
  {
    if e.tableName.None? then Run([], Failure(GenericError("Table name is not defined")))
    else if e.client.None? then Run([], Failure(NoClient))
    else
      var query := Plain(Render(DeleteRows(TableRef(e.tableName), None)));
      assert query.sql == "DELETE FROM " + QuoteIdentifier(e.tableName).value;
      match reply
      case Failure(reason) => Run([query], Failure(ConnectionError("CONNECT_FAILED", Some(reason))))
      case Success(_) => Run([query], Success(()))
  }

  /**
   * clear is deleteByFilter without a filter, once a table name is set: the
   * same DELETE, succeeding or failing together; only the error differs,
   * clear wrapping the driver's error as CONNECT_FAILED.
   */
  lemma ClearIsUnfilteredDelete(e: Engine, reply: Reply<()>)
    requires e.tableName.Some?
    ensures Clear(e, reply).issued == DeleteByFilter(e, None, reply).issued
    ensures Clear(e, reply).issued == DeleteByFilter(e, Some(""), reply).issued
    ensures Clear(e, reply).outcome.Success? <==> DeleteByFilter(e, None, reply).outcome.Success?
  {
  }
}

=== FILE: resolver.dfy ===
/**
 * PostgresConnectionResolver: validates the resolved connection endpoints
 * and composes the driver configuration from them and the credential. The
 * two lookups it awaits (connections, credential) are inputs.
 */
module Resolver {
  import opened Wrappers
  import opened Driver

  /** One resolved connection: optional URI, host and database; port 0 means unset. */
  datatype Endpoint = Endpoint(uri: Option<string>, host: Option<string>, port: int, database: Option<string>)

  /** The resolved credential; it is never validated. */
  datatype Credential = Credential(username: Option<string>, password: Option<string>)

  /** A value of the composed driver configuration. */
  datatype Setting = TextSetting(text: string) | NumberSetting(number: int)

  /** The composed driver configuration, keyed by `connectionString`, `host`, `port`, `database`, `user`, `password`. */
  type Config = map<string, Setting>

  /** JavaScript truthiness of a nullable string: null and "" are falsy. */
  predicate Given(s: Option<string>)
    ensures Given(s) <==> s.Some? && Truthy(Str(s.value))
  {
    s.Some? && s.value != ""
  }

  /** An endpoint that validation accepts: a URI, or host, port and database all set. */
  predicate Complete(e: Endpoint) {
    e.uri.Some? || (e.host.Some? && e.port != 0 && e.database.Some?)
  }

  /**
   * validateConnection: a URI (any non-null one) makes the endpoint valid;
   * otherwise host, port and database are checked in that order.
   */
  function ValidateConnection(e: Endpoint): (r: Result<(), Error>)
    ensures r.Success? <==> Complete(e)
    ensures r == Failure(ConfigError("NO_HOST")) <==> e.uri.None? && e.host.None?
    ensures r == Failure(ConfigError("NO_PORT")) <==> e.uri.None? && e.host.Some? && e.port == 0
    ensures r == Failure(ConfigError("NO_DATABASE")) <==>
              e.uri.None? && e.host.Some? && e.port != 0 && e.database.None?
  {
    if e.uri.Some? then Success(())
    else if e.host.None? then Failure(ConfigError("NO_HOST"))
    else if e.port == 0 then Failure(ConfigError("NO_PORT"))
    else if e.database.None? then Failure(ConfigError("NO_DATABASE"))
    else Success(())
  }

  /** A URI short-circuits validation, whatever the host, port and database are. */
  lemma UriShortCircuits(uri: string, host: Option<string>, port: int, database: Option<string>)
    ensures ValidateConnection(Endpoint(Some(uri), host, port, database)) == Success(())
  {
  }

  /** The endpoints one by one, in list order: the first invalid one's error, or success. */
  function ValidateEach(endpoints: seq<Endpoint>): (r: Result<(), Error>)
    ensures r.Success? <==> forall i :: 0 <= i < |endpoints| ==> Complete(endpoints[i])
    ensures r.Failure? ==>
              exists i :: 0 <= i < |endpoints| && r == ValidateConnection(endpoints[i])
                && !Complete(endpoints[i]) && forall j :: 0 <= j < i ==> Complete(endpoints[j])
  {
    if |endpoints| == 0 then Success(())
    else
      var first := ValidateConnection(endpoints[0]);
      if first.Failure? then first
      else
        var rest := ValidateEach(endpoints[1..]);
        ValidateEachStep(endpoints, rest);
        rest
  }

  /**
   * One step of the validation loop: after a valid first endpoint, the
   * verdict on the remaining endpoints is the verdict on the whole list.
   */
  lemma ValidateEachStep(endpoints: seq<Endpoint>, rest: Result<(), Error>)
    requires |endpoints| > 0 && Complete(endpoints[0])
    requires rest.Success? <==> forall i :: 0 <= i < |endpoints| - 1 ==> Complete(endpoints[1..][i])
    requires rest.Failure? ==>
               exists i :: 0 <= i < |endpoints| - 1 && rest == ValidateConnection(endpoints[1..][i])
                 && !Complete(endpoints[1..][i]) && forall j :: 0 <= j < i ==> Complete(endpoints[1..][j])
    ensures rest.Success? <==> forall i :: 0 <= i < |endpoints| ==> Complete(endpoints[i])
    ensures rest.Failure? ==>
              exists i :: 0 <= i < |endpoints| && rest == ValidateConnection(endpoints[i])
                && !Complete(endpoints[i]) && forall j :: 0 <= j < i ==> Complete(endpoints[j])
  {
    if rest.Failure? {
      var k :| 0 <= k < |endpoints| - 1 && rest == ValidateConnection(endpoints[1..][k])
               && !Complete(endpoints[1..][k]) && forall j :: 0 <= j < k ==> Complete(endpoints[1..][j]);
      assert forall j :: 0 <= j < k + 1 ==> Complete(endpoints[j]) by {
        forall j | 0 <= j < k + 1 ensures Complete(endpoints[j]) {
          if j > 0 { assert endpoints[j] == endpoints[1..][j - 1]; }
        }
      }
      assert endpoints[k + 1] == endpoints[1..][k];
    } else {
      assert forall i :: 0 <= i < |endpoints| ==> Complete(endpoints[i]) by {
        forall i | 0 <= i < |endpoints| ensures Complete(endpoints[i]) {
          if i > 0 { assert endpoints[i] == endpoints[1..][i - 1]; }
        }
      }
    }
  }

  /**
   * validateConnections: NO_CONNECTION for an absent or empty list;
   * otherwise the error of the first invalid endpoint, success only when
   * every endpoint is valid.
   */
  function ValidateConnections(endpoints: Option<seq<Endpoint>>): (r: Result<(), Error>)
    ensures endpoints.None? || endpoints.value == [] ==> r == Failure(ConfigError("NO_CONNECTION"))
    ensures endpoints.Some? && endpoints.value != [] ==>
              (r.Success? <==> forall i :: 0 <= i < |endpoints.value| ==> Complete(endpoints.value[i]))
    ensures endpoints.Some? && endpoints.value != [] && r.Failure? ==>
              exists i :: 0 <= i < |endpoints.value| && r == ValidateConnection(endpoints.value[i])
                && !Complete(endpoints.value[i]) && forall j :: 0 <= j < i ==> Complete(endpoints.value[j])
  {
    if endpoints.None? || |endpoints.value| == 0 then Failure(ConfigError("NO_CONNECTION"))
    else ValidateEach(endpoints.value)
  }

  /** An endpoint with neither URI nor host anywhere in the list makes validation fail. */
  lemma MissingHostFails(endpoints: seq<Endpoint>, k: nat)
    requires k < |endpoints| && endpoints[k].uri.None? && endpoints[k].host.None?
    ensures ValidateConnections(Some(endpoints)).Failure?
  {
  }

  /** When no endpoint has a URI or a host, the code is NO_HOST. */
  lemma AllHostless(endpoints: seq<Endpoint>)
    requires |endpoints| > 0
    requires forall i :: 0 <= i < |endpoints| ==> endpoints[i].uri.None? && endpoints[i].host.None?
    ensures ValidateConnections(Some(endpoints)) == Failure(ConfigError("NO_HOST"))
  {
  }

  /** What one endpoint contributes under a key: only truthy values count. */
  function Supplied(e: Endpoint, key: string): (v: Option<Setting>)
    ensures v.Some? ==> key in {"connectionString", "host", "port", "database"}
  {
    if key == "connectionString" && Given(e.uri) then Some(TextSetting(e.uri.value))
    else if key == "host" && Given(e.host) then Some(TextSetting(e.host.value))
    else if key == "port" && e.port != 0 then Some(NumberSetting(e.port))
    else if key == "database" && Given(e.database) then Some(TextSetting(e.database.value))
    else None
  }

  /** One iteration of composeConfig's loop: each truthy field overwrites its key. */
  function Overlay(config: Config, e: Endpoint): (r: Config)
    ensures forall k :: k in r <==> k in config || Supplied(e, k).Some?
    ensures forall k :: k in r ==> r[k] == if Supplied(e, k).Some? then Supplied(e, k).value else config[k]
  {
    var withUri := if Given(e.uri) then config["connectionString" := TextSetting(e.uri.value)] else config;
    var withHost := if Given(e.host) then withUri["host" := TextSetting(e.host.value)] else withUri;
    var withPort := if e.port != 0 then withHost["port" := NumberSetting(e.port)] else withHost;
    if Given(e.database) then withPort["database" := TextSetting(e.database.value)] else withPort
  }

  /** Every key of `r` is supplied by some endpoint, and every supplied key is in `r`. */
  ghost predicate KeysSupplied(r: Config, endpoints: seq<Endpoint>) {
    forall k :: k in r <==> exists i :: 0 <= i < |endpoints| && Supplied(endpoints[i], k).Some?
  }

  /** Each key holds the value of the last endpoint that supplies it. */
  ghost predicate LastSupplierWins(r: Config, endpoints: seq<Endpoint>) {
    forall k, i :: 0 <= i < |endpoints| && Supplied(endpoints[i], k).Some?
      && (forall j :: i < j < |endpoints| ==> Supplied(endpoints[j], k).None?)
      ==> k in r && r[k] == Supplied(endpoints[i], k).value
  }

  lemma OverlayStep(before: Config, init: seq<Endpoint>, last: Endpoint)
    requires KeysSupplied(before, init) && LastSupplierWins(before, init)
    ensures KeysSupplied(Overlay(before, last), init + [last])
    ensures LastSupplierWins(Overlay(before, last), init + [last])
  {
    var eps := init + [last];
    var r := Overlay(before, last);
    assert eps[|init|] == last;
    assert forall i :: 0 <= i < |init| ==> eps[i] == init[i];
    forall k
      ensures k in r <==> exists i :: 0 <= i < |eps| && Supplied(eps[i], k).Some?
    {
      if k in r && Supplied(last, k).None? {
        var i :| 0 <= i < |init| && Supplied(init[i], k).Some?;
        assert Supplied(eps[i], k).Some?;
      }
    }
    forall k, i | 0 <= i < |eps| && Supplied(eps[i], k).Some?
                  && (forall j :: i < j < |eps| ==> Supplied(eps[j], k).None?)
      ensures k in r && r[k] == Supplied(eps[i], k).value
    {
      if i < |init| {
        assert Supplied(eps[|init|], k).None?;
        assert forall j :: i < j < |init| ==> Supplied(init[j], k).None? by {
          forall j | i < j < |init| ensures Supplied(init[j], k).None? {
            assert eps[j] == init[j];
          }
        }
      }
    }
  }

  /**
   * The connection part of composeConfig: a key is present exactly when some
   * endpoint supplies it, and holds the value of the last endpoint that does.
   */
  function ComposeConnections(endpoints: seq<Endpoint>): (r: Config)
    ensures KeysSupplied(r, endpoints)
    ensures LastSupplierWins(r, endpoints)
  {
    if |endpoints| == 0 then map[]
    else
      var init := endpoints[..|endpoints| - 1];
      var last := endpoints[|endpoints| - 1];
      var before := ComposeConnections(init);
      assert endpoints == init + [last];
      OverlayStep(before, init, last);
      Overlay(before, last)
  }

  /** composeConfig: the connection part, then `user` and `password` from a present credential when truthy. */
  function ComposeConfig(endpoints: seq<Endpoint>, credential: Option<Credential>): (r: Config)
    ensures forall k :: k != "user" && k != "password" ==>
              (k in r <==> k in ComposeConnections(endpoints))
              && (k in r ==> r[k] == ComposeConnections(endpoints)[k])
    ensures "user" in r <==> credential.Some? && Given(credential.value.username)
    ensures "user" in r ==> r["user"] == TextSetting(credential.value.username.value)
    ensures "password" in r <==> credential.Some? && Given(credential.value.password)
    ensures "password" in r ==> r["password"] == TextSetting(credential.value.password.value)
  {
    var config := ComposeConnections(endpoints);
    assert "user" !in config && "password" !in config;
    match credential
    case None => config
    case Some(c) =>
      var withUser := if Given(c.username) then config["user" := TextSetting(c.username.value)] else config;
      if Given(c.password) then withUser["password" := TextSetting(c.password.value)] else withUser
  }

  /** A URI does not suppress host, port or database: both kinds of key can be present. */
  lemma UriAndHostBothComposed(uri: string, host: string, port: int, database: string)
    requires uri != "" && host != "" && port != 0 && database != ""
    ensures var r := ComposeConfig([Endpoint(Some(uri), Some(host), port, Some(database))], None);
            && r["connectionString"] == TextSetting(uri) && r["host"] == TextSetting(host)
            && r["port"] == NumberSetting(port) && r["database"] == TextSetting(database)
  {
    var e := Endpoint(Some(uri), Some(host), port, Some(database));
    assert Supplied(e, "connectionString").Some? && Supplied(e, "host").Some?;
    assert Supplied(e, "port").Some? && Supplied(e, "database").Some?;
  }

  /**
   * Validation checks the URI for null, composition for truthiness: an
   * empty URI passes validation yet contributes no key at all.
   */
  lemma EmptyUriValidatesButComposesNothing()
    ensures ValidateConnections(Some([Endpoint(Some(""), None, 0, None)])).Success?
    ensures ComposeConfig([Endpoint(Some(""), None, 0, None)], None) == map[]
  {
    var e := Endpoint(Some(""), None, 0, None);
    assert forall k :: Supplied(e, k).None?;
    var r := ComposeConfig([e], None);
    assert forall k :: k !in r;
    assert r.Keys == {};
  }

  /** What resolve did: whether it awaited the credential lookup, and its result. */
  datatype Resolution = Resolution(credentialLookedUp: bool, config: Result<Config, Error>)

  /**
   * resolve: validation runs before the credential lookup and before
   * composition, so an invalid list yields no config and no lookup.
   */
  function Resolve(endpoints: Option<seq<Endpoint>>, credential: Option<Credential>): (r: Resolution)
    ensures r.config.Failure? <==> ValidateConnections(endpoints).Failure?
    ensures r.config.Failure? ==> !r.credentialLookedUp && r.config.error == ValidateConnections(endpoints).error
    ensures r.config.Success? ==> r.credentialLookedUp && endpoints.Some? && endpoints.value != []
    ensures r.config.Success? ==> r.config.value == ComposeConfig(endpoints.value, credential)
  {
    match ValidateConnections(endpoints)
    case Failure(error) => Resolution(false, Failure(error))
    case Success(_) => Resolution(true, Success(ComposeConfig(endpoints.value, credential)))
  }

  /** The credential never decides whether resolve fails. */
  lemma CredentialNeverFails(endpoints: Option<seq<Endpoint>>, c1: Option<Credential>, c2: Option<Credential>)
    ensures Resolve(endpoints, c1).config.Failure? == Resolve(endpoints, c2).config.Failure?
  {
  }
}

=== FILE: schema.dfy ===
/**
 * The engine's schema statements: an append-only list of DDL strings built
 * by `ensureIndex` / `ensureSchema`, emptied by `clearSchema`, and replayed
 * once by `createSchema` when the table does not exist yet.
 */
module Schema {
  import opened Wrappers
  import opened Text
  import opened Driver
  import opened Sql

  /** The `options` argument of ensureIndex; an absent option reads as unset. */
  datatype IndexOptions = IndexOptions(unique: bool, indexType: Option<string>)

  /** One entry of ensureIndex's `keys` object: a field (or expression) and its direction value. */
  datatype IndexKey = IndexKey(field: string, direction: Value)

  /** Each key as it appears between the parentheses: ` DESC` exactly for a falsy direction. */
  function IndexFields(keys: seq<IndexKey>): (r: seq<string>)
    ensures |r| == |keys|
    ensures forall i :: 0 <= i < |keys| ==> r[i] == keys[i].field || r[i] == keys[i].field + " DESC"
    ensures forall i :: 0 <= i < |keys| ==> (r[i] == keys[i].field + " DESC" <==> !Truthy(keys[i].direction))
  {
    seq(|keys|, i requires 0 <= i < |keys| => keys[i].field + if Truthy(keys[i].direction) then "" else " DESC")
  }

  predicate HasIndexType(o: IndexOptions) {
    o.indexType.Some? && o.indexType.value != ""
  }

  /** `CREATE`, followed by ` UNIQUE` for a unique index. */
  function IndexHead(unique: bool): string {
    "CREATE" + if unique then " UNIQUE" else ""
  }

  /** The head decides whether the statement reads `CREATE UNIQUE `. */
  lemma UniqueHead(unique: bool, rest: string)
    ensures ("CREATE UNIQUE " <= IndexHead(unique) + " INDEX IF NOT EXISTS " + rest) <==> unique
  {
    var s := IndexHead(unique) + " INDEX IF NOT EXISTS " + rest;
    if !unique {
      assert s[7] == 'I';
      assert "CREATE UNIQUE "[7] == 'U';
    } else {
      assert s[..14] == "CREATE UNIQUE ";
    }
  }

  /**
   * The statement ensureIndex builds:
   * `CREATE[ UNIQUE] INDEX IF NOT EXISTS <name> ON <table>[ <type>] (<k1>[ DESC], ...)`.
   */
  function IndexStatement(table: Option<string>, name: Option<string>, keys: seq<IndexKey>,
                          options: Option<IndexOptions>): (s: string)
    ensures var o := options.GetOr(IndexOptions(false, None));
            s == IndexHead(o.unique) + " INDEX IF NOT EXISTS "
                 + (Show(QuoteIdentifier(name)) + " ON " + TableRef(table)
                    + (if HasIndexType(o) then " " + o.indexType.value else "")
                    + " (" + Join(", ", DropLeadingEmpty(IndexFields(keys))) + ")")
    ensures ("CREATE UNIQUE " <= s) <==> options.Some? && options.value.unique
  {
    var o := options.GetOr(IndexOptions(false, None));
    var target := Show(QuoteIdentifier(name)) + " ON " + TableRef(table);
    var typed := target + if HasIndexType(o) then " " + o.indexType.value else "";
    var rest := typed + " (" + Accumulate(", ", IndexFields(keys)) + ")";
    UniqueHead(o.unique, rest);
    IndexHead(o.unique) + " INDEX IF NOT EXISTS " + rest
  }

  /** ensureSchema: the statement goes at the end; earlier statements stay as they were. */
  function EnsureSchema(schema: seq<string>, statement: string): (r: seq<string>)
    ensures |r| == |schema| + 1
    ensures r[..|schema|] == schema && r[|schema|] == statement
  {
    schema + [statement]
  }

  /** ensureIndex: appends exactly one statement, the index's CREATE INDEX. */
  function EnsureIndex(schema: seq<string>, table: Option<string>, name: Option<string>,
                       keys: seq<IndexKey>, options: Option<IndexOptions>): (r: seq<string>)
    ensures |r| == |schema| + 1
    ensures r[..|schema|] == schema && r[|schema|] == IndexStatement(table, name, keys, options)
  {
    EnsureSchema(schema, IndexStatement(table, name, keys, options))
  }

  /** clearSchema: no statement is left. */
  function ClearSchema(): (r: seq<string>)
    ensures |r| == 0
  {
    []
  }

  /** Appending statements one by one from a cleared list rebuilds exactly those statements, in order. */
  function EnsureAll(schema: seq<string>, statements: seq<string>): seq<string>
    decreases |statements|
  {
    if |statements| == 0 then schema
    else EnsureAll(EnsureSchema(schema, statements[0]), statements[1..])
  }

  lemma {:induction false} EnsureAllAppends(schema: seq<string>, statements: seq<string>)
    ensures EnsureAll(schema, statements) == schema + statements
    decreases |statements|
  {
    if |statements| > 0 {
      EnsureAllAppends(schema + [statements[0]], statements[1..]);
      assert schema + [statements[0]] + statements[1..] == schema + statements;
    }
  }

  lemma RebuildAfterClear(statements: seq<string>)
    ensures EnsureAll(ClearSchema(), statements) == statements
  {
    EnsureAllAppends(ClearSchema(), statements);
  }

  /** The driver's answers during bootstrap: the probe's rows, and which DDL statement (if any) fails. */
  datatype DdlFailure = DdlFailure(index: nat, reason: string)
  datatype SchemaReplies = SchemaReplies(probe: Reply<seq<Row>>, failure: Option<DdlFailure>)

  /** The catalog probe; the table name goes in raw, without quoting. */
  function ProbeQuery(table: Option<string>): string {
    "SELECT to_regclass('" + Show(table) + "')"
  }

  /** The probe says the table exists: a first row whose `to_regclass` is present and not null. */
  predicate TableExists(rows: seq<Row>) {
    && |rows| > 0
    && Lookup(rows[0], "to_regclass").Some?
    && Lookup(rows[0], "to_regclass").value != Null
  }

  /** The failure falls on one of the statements from position `from` on. */
  predicate FailsFrom(statements: seq<string>, from: nat, failure: Option<DdlFailure>) {
    failure.Some? && from <= failure.value.index < |statements|
  }

  /** Where a DDL run starting at `from` stops: just past the failing statement, or at the end. */
  function StopAt(statements: seq<string>, from: nat, failure: Option<DdlFailure>): nat {
    if FailsFrom(statements, from, failure) then failure.value.index + 1 else |statements|
  }

  /**
   * Runs the statements from position `from` on, in order, each awaited
   * before the next; the first failing one ends the run with its error.
   */
  function RunDdl(statements: seq<string>, from: nat, failure: Option<DdlFailure>)
    : (r: (seq<string>, Option<string>))
    requires from <= |statements|
    ensures from <= StopAt(statements, from, failure) <= |statements|
    ensures r.0 == statements[from..StopAt(statements, from, failure)]
    ensures r.1.Some? <==> FailsFrom(statements, from, failure)
    ensures r.1.Some? ==> r.1.value == failure.value.reason
    decreases |statements| - from
  {
    if from == |statements| then ([], None)
    else if failure.Some? && failure.value.index == from then ([statements[from]], Some(failure.value.reason))
    else
      var rest := RunDdl(statements, from + 1, failure);
      assert statements[from..StopAt(statements, from, failure)]
             == [statements[from]] + statements[from + 1..StopAt(statements, from, failure)];
      ([statements[from]] + rest.0, rest.1)
  }

  function Plains(sqls: seq<string>): (r: seq<Statement>)
    ensures |r| == |sqls|
    ensures forall i :: 0 <= i < |sqls| ==> r[i] == Plain(sqls[i])
  {
    seq(|sqls|, i requires 0 <= i < |sqls| => Plain(sqls[i]))
  }

  /**
   * createSchema: nothing to do for an empty list; otherwise probe the
   * catalog and, only when the table is absent, run every statement in
   * insertion order, stopping at and rethrowing the first failure.
   */
  function CreateSchema(table: Option<string>, schema: seq<string>, replies: SchemaReplies): (r: Run<()>)
    ensures schema == [] ==> r == Run([], Success(()))
    ensures schema != [] ==> |r.issued| >= 1 && r.issued[0] == Plain(ProbeQuery(table))
    ensures schema != [] && replies.probe.Failure? ==>
              |r.issued| == 1 && r.outcome == Failure(Propagated(replies.probe.error))
    ensures schema != [] && replies.probe.Success? && TableExists(replies.probe.value) ==>
              |r.issued| == 1 && r.outcome.Success?
    ensures schema != [] && replies.probe.Success? && !TableExists(replies.probe.value) ==>
              && |r.issued| == 1 + StopAt(schema, 0, replies.failure)
              && (forall i :: 0 <= i < |r.issued| - 1 ==> r.issued[i + 1] == Plain(schema[i]))
              && (r.outcome.Failure? <==> FailsFrom(schema, 0, replies.failure))
              && (r.outcome.Failure? ==> r.outcome.error == Propagated(replies.failure.value.reason))
  {
    if |schema| == 0 then Run([], Success(()))
    else
      var probe := [Plain(ProbeQuery(table))];
      match replies.probe
      case Failure(reason) => Run(probe, Failure(Propagated(reason)))
      case Success(rows) =>
        if TableExists(rows) then Run(probe, Success(()))
        else
          var ddl := RunDdl(schema, 0, replies.failure);
          var outcome := if ddl.1.Some? then Failure(Propagated(ddl.1.value)) else Success(());
          Run(probe + Plains(ddl.0), outcome)
  }

  /** Once the probe reports the table, no DDL statement runs, whatever the list holds. */
  lemma ExistingTableRunsNoDdl(table: Option<string>, schema: seq<string>, replies: SchemaReplies)
    requires replies.probe.Success? && TableExists(replies.probe.value)
    ensures CreateSchema(table, schema, replies).issued == if schema == [] then [] else [Plain(ProbeQuery(table))]
  {
  }

  /** With the table absent and no failing statement, the probe is followed by every statement in order. */
  lemma AbsentTableRunsAll(table: Option<string>, schema: seq<string>, probeRows: seq<Row>)
    requires schema != [] && !TableExists(probeRows)
    ensures CreateSchema(table, schema, SchemaReplies(Success(probeRows), None))
            == Run([Plain(ProbeQuery(table))] + Plains(schema), Success(()))
  {
    var r := CreateSchema(table, schema, SchemaReplies(Success(probeRows), None));
    assert r.issued == [Plain(ProbeQuery(table))] + Plains(schema);
  }
}

=== FILE: sql.dfy ===
/**
 * SQL text builders of the persistence engine: identifier quoting, the
 * column / placeholder / assignment lists of INSERT and UPDATE statements,
 * and the shapes of the queries the data operations issue.
 */
module Sql {
  import opened Wrappers
  import opened Text
  import opened Driver

  /** A name `QuoteIdentifier` leaves alone: empty, or already starting with a double quote. */
  predicate Passthrough(s: string) {
    s == "" || s[0] == '"'
  }

  /** PostgresPersistence.quoteIdentifier: the only escaping applied to identifiers. */
  function QuoteIdentifier(value: Option<string>): (r: Option<string>)
    ensures r.Some? <==> value.Some?
    ensures r.Some? ==> Passthrough(r.value)
    ensures value.Some? && Passthrough(value.value) ==> r == value
    ensures value.Some? && !Passthrough(value.value) ==> r.value == "\"" + value.value + "\""
  {
    match value
    case None => None
    case Some(v) => if Passthrough(v) then value else Some("\"" + v + "\"")
  }

  /** Quoting twice is quoting once. */
  lemma QuoteIdentifierIdempotent(value: Option<string>)
    ensures QuoteIdentifier(QuoteIdentifier(value)) == QuoteIdentifier(value)
  {
  }

  /** Quoting a column name that is known to be present. */
  function QuoteName(name: string): (r: string)
    ensures r == "" <==> name == ""
  {
    QuoteIdentifier(Some(name)).value
  }

  /** The table as it appears in a statement; an unset table name is written "null". */
  function TableRef(table: Option<string>): string {
    Show(QuoteIdentifier(table))
  }

  function QuoteAll(names: seq<string>): (r: seq<string>)
    ensures |r| == |names|
    ensures forall i :: 0 <= i < |names| ==> r[i] == QuoteName(names[i])
  {
    seq(|names|, i requires 0 <= i < |names| => QuoteName(names[i]))
  }

  /**
   * PostgresPersistence.generateColumns over a field list (an object passes
   * its `Object.keys`): the quoted names separated by commas. Empty names
   * before the first non-empty one leave no trace.
   */
  function GenerateColumns(names: seq<string>): (r: string)
    ensures r == Join(",", DropLeadingEmpty(QuoteAll(names)))
    ensures (forall i :: 0 <= i < |names| ==> names[i] != "") ==> r == Join(",", QuoteAll(names))
  {
    Accumulate(",", QuoteAll(names))
  }

  /** The `$n` placeholder of the n-th bound value. */
  function Placeholder(n: nat): (r: string)
    ensures |r| > 1 && r[0] == '$'
  {
    "$" + NatToString(n)
  }

  /** Distinct positions get distinct placeholders. */
  lemma PlaceholderInjective(m: nat, n: nat)
    requires Placeholder(m) == Placeholder(n)
    ensures m == n
  {
    assert Placeholder(m)[1..] == NatToString(m);
    assert Placeholder(n)[1..] == NatToString(n);
    NatToStringInjective(m, n);
  }

  function Placeholders(count: nat): (r: seq<string>)
    ensures |r| == count
    ensures forall i :: 0 <= i < count ==> r[i] == Placeholder(i + 1)
  {
    seq(count, i requires 0 <= i < count => Placeholder(i + 1))
  }

  /** PostgresPersistence.generateParameters over `count` values: `$1,$2,...,$count`. */
  function GenerateParameters(count: nat): (r: string)
    ensures r == Join(",", Placeholders(count))
  {
    AccumulateNonEmptyParts(",", Placeholders(count));
    Accumulate(",", Placeholders(count))
  }

  function Assignments(row: Row): (r: seq<string>)
    ensures |r| == |row|
    ensures forall i :: 0 <= i < |row| ==> r[i] == QuoteName(row[i].name) + "=" + Placeholder(i + 1)
  {
    seq(|row|, i requires 0 <= i < |row| => QuoteName(row[i].name) + "=" + Placeholder(i + 1))
  }

  /** PostgresPersistence.generateSetParameters: `"c1"=$1,"c2"=$2,...` in field order. */
  function GenerateSetParameters(row: Row): (r: string)
    ensures r == Join(",", Assignments(row))
  {
    AccumulateNonEmptyParts(",", Assignments(row));
    Accumulate(",", Assignments(row))
  }

  /** PostgresPersistence.generateValues: `Object.values`, in field order. */
  function GenerateValues(row: Row): (r: seq<Value>)
    ensures |r| == |row|
    ensures forall i :: 0 <= i < |row| ==> r[i] == row[i].value
  {
    seq(|row|, i requires 0 <= i < |row| => row[i].value)
  }

  /**
   * For a row with non-empty column names, the column list, the placeholder
   * list and the value list are index-aligned: the i-th quoted column, `$i`
   * and the i-th value all come from the i-th field.
   */
  lemma InsertListsAligned(row: Row)
    requires forall i :: 0 <= i < |row| ==> row[i].name != ""
    ensures GenerateColumns(Keys(row)) == Join(",", QuoteAll(Keys(row)))
    ensures GenerateParameters(|row|) == Join(",", Placeholders(|row|))
    ensures |QuoteAll(Keys(row))| == |Placeholders(|row|)| == |GenerateValues(row)| == |row|
    ensures forall i :: 0 <= i < |row| ==>
              && QuoteAll(Keys(row))[i] == QuoteName(row[i].name)
              && Placeholders(|row|)[i] == Placeholder(i + 1)
              && GenerateValues(row)[i] == row[i].value
  {
  }

  /** The shapes of the statements the data operations issue. */
  datatype Query =
    | Select(projection: string, table: string, where: Option<string>, orderBy: Option<string>,
             offset: Option<int>, limit: Option<int>)
    | CountRows(table: string, where: Option<string>)
    | DeleteRows(table: string, where: Option<string>)
    | InsertRow(table: string, columns: string, parameters: string)

  function Clause(keyword: string, text: Option<string>): string {
    if text.Some? then " " + keyword + " " + text.value else ""
  }

  function NumberClause(keyword: string, n: Option<int>): string {
    if n.Some? then " " + keyword + " " + IntToString(n.value) else ""
  }

  /** The SQL text of a query. */
  function Render(q: Query): string {
    match q
    case Select(projection, table, where, orderBy, offset, limit) =>
      "SELECT " + projection + " FROM " + table + Clause("WHERE", where) + Clause("ORDER BY", orderBy)
      + NumberClause("OFFSET", offset) + NumberClause("LIMIT", limit)
    case CountRows(table, where) =>
      "SELECT COUNT(*) AS count FROM " + table + Clause("WHERE", where)
    case DeleteRows(table, where) =>
      "DELETE FROM " + table + Clause("WHERE", where)
    case InsertRow(table, columns, parameters) =>
      "INSERT INTO " + table + " (" + columns + ") VALUES (" + parameters + ") RETURNING *"
  }
}

=== FILE: text.dfy ===
/**
 * String building blocks the SQL builders rest on: decimal numerals (as
 * JavaScript renders an integer concatenated into a string, for integers
 * below 2^53 in magnitude; the exponent form JavaScript writes from 10^21
 * up is not reproduced), rendering of a
 * nullable string in a concatenation, a reference `Join`, and the
 * accumulation idiom the source repeats in every list builder.
 */
module Text {
  import opened Wrappers

  predicate IsDigit(c: char) {
    '0' <= c <= '9'
  }

  predicate AllDigits(s: string) {
    forall i :: 0 <= i < |s| ==> IsDigit(s[i])
  }

  function Digit(d: nat): (c: char)
    requires d < 10
    ensures IsDigit(c) && c as int - '0' as int == d
  {
    ('0' as int + d) as char
  }

  /** Decimal numeral of a natural number, most significant digit first, no leading zeros. */
  function NatToString(n: nat): (s: string)
    ensures |s| > 0 && AllDigits(s)
    ensures |s| > 1 ==> s[0] != '0'
  {
    if n < 10 then [Digit(n)] else NatToString(n / 10) + [Digit(n % 10)]
  }

  /** Value of a decimal numeral; the inverse of `NatToString`. */
  function ParseNat(s: string): nat
    requires AllDigits(s)
  {
    if |s| == 0 then 0 else ParseNat(s[..|s| - 1]) * 10 + (s[|s| - 1] as int - '0' as int)
  }

  lemma {:induction false} ParseNatToString(n: nat)
    ensures ParseNat(NatToString(n)) == n
  {
    if n >= 10 {
      var s := NatToString(n / 10);
      var t := s + [Digit(n % 10)];
      assert t[..|t| - 1] == s;
      ParseNatToString(n / 10);
    }
  }

  lemma NatToStringInjective(m: nat, n: nat)
    requires NatToString(m) == NatToString(n)
    ensures m == n
  {
    ParseNatToString(m);
    ParseNatToString(n);
  }

  /** Decimal numeral of an integer: a minus sign in front of negative values. */
  function IntToString(i: int): (s: string)
    ensures |s| > 0
    ensures s[0] == '-' <==> i < 0
  {
    if i < 0 then "-" + NatToString(-i) else NatToString(i)
  }

  predicate IsNumeral(s: string) {
    if |s| > 0 && s[0] == '-' then AllDigits(s[1..]) else AllDigits(s)
  }

  function ParseInt(s: string): int
    requires IsNumeral(s)
  {
    if |s| > 0 && s[0] == '-' then -(ParseNat(s[1..]) as int) else ParseNat(s)
  }

  lemma IntToStringRoundTrip(i: int)
    ensures IsNumeral(IntToString(i)) && ParseInt(IntToString(i)) == i
  {
    if i < 0 {
      assert IntToString(i)[1..] == NatToString(-i);
      ParseNatToString(-i);
    } else {
      ParseNatToString(i);
    }
  }

  /** A nullable string as JavaScript writes it into a concatenation. */
  function Show(s: Option<string>): (r: string)
    ensures s.Some? ==> r == s.value
    ensures s.None? ==> r == "null"
  {
    match s
    case Some(v) => v
    case None => "null"
  }

  /** Reference definition: the parts separated by `sep`. */
  function Join(sep: string, parts: seq<string>): string
  {
    if |parts| == 0 then ""
    else if |parts| == 1 then parts[0]
    else Join(sep, parts[..|parts| - 1]) + sep + parts[|parts| - 1]
  }

  lemma {:induction false} JoinStartsWithFirst(sep: string, parts: seq<string>)
    requires |parts| > 0
    ensures parts[0] <= Join(sep, parts)
  {
    if |parts| > 1 {
      var init := parts[..|parts| - 1];
      JoinStartsWithFirst(sep, init);
      assert init[0] == parts[0];
    }
  }

  lemma JoinSnoc(sep: string, parts: seq<string>, x: string)
    requires |parts| > 0
    ensures Join(sep, parts + [x]) == Join(sep, parts) + sep + x
  {
    assert (parts + [x])[..|parts|] == parts;
  }

  /** The parts after the leading run of empty strings. */
  function DropLeadingEmpty(parts: seq<string>): (r: seq<string>)
    ensures |r| <= |parts| && r == parts[|parts| - |r|..]
    ensures |r| > 0 ==> r[0] != ""
    ensures forall i :: 0 <= i < |parts| - |r| ==> parts[i] == ""
  {
    if |parts| > 0 && parts[0] == "" then DropLeadingEmpty(parts[1..]) else parts
  }

  lemma {:induction false} DropLeadingEmptySnoc(parts: seq<string>, x: string)
    ensures DropLeadingEmpty(parts + [x]) ==
            if DropLeadingEmpty(parts) == [] then (if x == "" then [] else [x])
            else DropLeadingEmpty(parts) + [x]
  {
    if |parts| == 0 {
      assert parts + [x] == [x];
      assert [x][1..] == [];
    } else if parts[0] == "" {
      assert (parts + [x])[1..] == parts[1..] + [x];
      DropLeadingEmptySnoc(parts[1..], x);
    }
  }

  /**
   * One step of the source's list builders: the separator is written only
   * when the accumulator is already non-empty.
   */
  function AppendPart(acc: string, sep: string, part: string): string {
    (if acc != "" then acc + sep else acc) + part
  }

  lemma AppendPartJoin(sep: string, parts: seq<string>, x: string)
    ensures Join(sep, DropLeadingEmpty(parts + [x]))
            == AppendPart(Join(sep, DropLeadingEmpty(parts)), sep, x)
  {
    var d := DropLeadingEmpty(parts);
    DropLeadingEmptySnoc(parts, x);
    if d != [] {
      JoinStartsWithFirst(sep, d);
      JoinSnoc(sep, d, x);
    }
  }

  /**
   * The source's list builders fold `AppendPart` over their parts. Empty
   * parts before the first non-empty one leave no trace; after it, every
   * part gets its separator.
   */
  function Accumulate(sep: string, parts: seq<string>): (r: string)
    ensures r == Join(sep, DropLeadingEmpty(parts))
  {
    if |parts| == 0 then ""
    else
      var init := parts[..|parts| - 1];
      var last := parts[|parts| - 1];
      assert parts == init + [last];
      AppendPartJoin(sep, init, last);
      AppendPart(Accumulate(sep, init), sep, last)
  }

  /** With no empty part, the accumulation idiom is a plain join. */
  lemma AccumulateNonEmptyParts(sep: string, parts: seq<string>)
    requires forall i :: 0 <= i < |parts| ==> parts[i] != ""
    ensures Accumulate(sep, parts) == Join(sep, parts)
  {
  }
}

=== FILE: wrappers.dfy ===
/** A nullable value and a value-or-error, the two shapes every operation of the core returns. */
module Wrappers {

  /** A value that may be absent; stands for JavaScript's null (and undefined). */
  datatype Option<+T> = None | Some(value: T) {

    /** The wrapped value, or `default` when absent. */
    function GetOr(default: T): T {
      if Some? then value else default
    }
  }

  /** The outcome of an operation that either returns a value or raises an error. */
  datatype Result<+T, +E> = Success(value: T) | Failure(error: E)
}
